=== FILE: README.md ===
# Kinetic curve: a Dafny model

This project models the arithmetic of the `KineticCurve` React component (`src/components/kinetic-curve.tsx`). The component draws a cubic Bézier curve. Its two end anchors are fixed, and its two inner handles are driven by a spring-damper toward the pointer. The first handle chases the pointer. The second chases the pointer reflected through the canvas centre. The curve, its unit tangents and the placement of the points on resize are computed from plain arithmetic. That arithmetic is modelled here over exact reals.

The project has three modules:

- `Geometry` (`geometry.dfy`) covers points, `lerp`, the Bézier point and the tangent, and the point reflection.
  - The Bernstein form the component evaluates is proved equal to de Casteljau's construction.
  - Its derivative is proved to be three times the de Casteljau chord.
- `Physics` (`physics.dfy`) covers the spring-damper step `updatePoint` with spring constant 0.05 and damping 0.8.
  - Per axis, with displacement e = pos − target and velocity v, the quadratic energy is e² + 4ev + 20v², which equals (e + 2v)² + 16v².
  - Every step multiplies this energy by exactly 0.8. The energy also bounds the squared distance to the target.
- `KineticCurve` (`kinetic_curve.dfy`) covers the scene.
  - The scene is two anchors, two dynamic handles and the pointer.
  - It covers `init`, which also runs on every resize, and the per-frame `updatePhysics`.
  - It covers runs of n frames: the handles never diverge and approach their targets geometrically.
  - Mirror symmetry of the handles through the centre, once established, holds forever.

`Math.sqrt` is not modelled as a function. Where the component divides by a length, the caller supplies `len`. The contracts speak of the case where `len` is the true length (`Geometry.IsLength`): `len >= 0` and `len * len` equal to the squared length.

## Model

| member | source | states |
|---|---|---|
| Geometry.Lerp | src/components/kinetic-curve.tsx:17 | interpolation gives `a` at t = 0, `b` at t = 1, and `a` whenever a = b |
| Geometry.LerpReverse | src/components/kinetic-curve.tsx:17 | interpolating a→b at 1 − t is interpolating b→a at t |
| Geometry.BezierPoint | src/components/kinetic-curve.tsx:19-30 | the curve starts at p0 (t = 0) and ends at p3 (t = 1) |
| Geometry.BezierIsDeCasteljau | src/components/kinetic-curve.tsx:19-30 | the Bernstein form equals de Casteljau's construction at every t, i.e. it is the cubic Bézier curve |
| Geometry.DegenerateCurvePoint | src/components/kinetic-curve.tsx:19-30 | the Bernstein weights sum to one: four coincident control points give that point at every t |
| Geometry.BezierReverse | src/components/kinetic-curve.tsx:19-30 | reversing the control points traverses the same curve with t replaced by 1 − t |
| Geometry.Derivative | src/components/kinetic-curve.tsx:37-38 | the raw derivative at the ends is 3·(p1 − p0) and 3·(p3 − p2) |
| Geometry.DerivativeIsDeCasteljauChord | src/components/kinetic-curve.tsx:37-38 | the derivative is three times the chord of the last de Casteljau round |
| Geometry.BernsteinTaylor | src/components/kinetic-curve.tsx:19-38 | on one axis, the cubic at t + h is its value at t plus h times the line-37 expression plus exact h² and h³ terms |
| Geometry.DerivativeIsCurveDerivative | src/components/kinetic-curve.tsx:37-38 | moving the parameter by h moves the curve point by h times the derivative plus h² times a polynomial remainder, so the expression of lines 37-38 is the curve's true derivative |
| Geometry.DerivativeReverse | src/components/kinetic-curve.tsx:37-38 | reversing the control points negates the derivative |
| Geometry.Normalize | src/components/kinetic-curve.tsx:40-41 | a non-positive length gives the zero vector; given the vector's true length, the result is zero exactly when the vector is zero, and otherwise has unit length with len times it equal to the vector |
| Geometry.Tangent | src/components/kinetic-curve.tsx:32-42 | given the derivative's true length, the tangent is zero exactly when the derivative vanishes, and otherwise it is a unit vector pointing along the derivative |
| Geometry.DegenerateCurveTangent | src/components/kinetic-curve.tsx:32-42 | a curve collapsed to a point has zero derivative, and its tangent is the zero vector whatever length is supplied |
| Geometry.Mirror | src/components/kinetic-curve.tsx:163-166 | the centre is the midpoint of a point and its mirror image |
| Geometry.MirrorInvolution | src/components/kinetic-curve.tsx:163-166 | mirroring twice through the same centre gives the original point back |
| Geometry.MirrorFixedIff | src/components/kinetic-curve.tsx:163-166 | the centre is the only point its reflection leaves fixed |
| Physics.UpdatePoint | src/components/kinetic-curve.tsx:141-156 | new velocity = 0.8·(old velocity + 0.05·(target − pos)); the position moves by the new velocity |
| Physics.UpdatePointFixedIff | src/components/kinetic-curve.tsx:141-156 | a step leaves a point unchanged exactly when it rests on its target with zero velocity |
| Physics.UpdatePointAxesIndependent | src/components/kinetic-curve.tsx:141-156 | each axis of the step depends only on that axis of the point and the target |
| Physics.MirrorDynamic | src/components/kinetic-curve.tsx:163-166 | reflecting a dynamic point reflects its position and negates its velocity |
| Physics.MirrorDynamicInvolution | src/components/kinetic-curve.tsx:163-166 | reflecting a dynamic point twice gives it back |
| Physics.UpdatePointCommutesWithMirror | src/components/kinetic-curve.tsx:141-167 | stepping the mirrored point toward the mirrored target is the mirror of the stepped point |
| Physics.AxisEnergyContracts | src/components/kinetic-curve.tsx:141-156 | on one axis, one step multiplies e² + 4ev + 20v² by exactly 0.8 |
| Physics.EnergyContracts | src/components/kinetic-curve.tsx:141-156 | one step multiplies the point's energy about its target by exactly the damping factor |
| Physics.AxisEnergyBoundsDisplacement | src/components/kinetic-curve.tsx:141-156 | on one axis, the energy is at least 0.8·e² |
| Physics.EnergyBoundsDistance | src/components/kinetic-curve.tsx:141-156 | the squared distance to the target is at most 1.25 times the energy |
| KineticCurve.Center | src/components/kinetic-curve.tsx:162 | the centre is half the width and half the height |
| KineticCurve.Init | src/components/kinetic-curve.tsx:67-78 | placement puts the pointer at the centre and the first anchor at (width/10, height/2); the second anchor is its mirror image through the centre, so both are inset by a tenth of the width; the handles sit 1/4 and 3/4 of the way along, mirror images through the centre, and 100 above and below; the velocities are untouched |
| KineticCurve.InitExample | src/components/kinetic-curve.tsx:67-78 | an 800×450 surface gives anchors (80, 225) and (720, 225), handles (240, 125) and (560, 325), and the pointer (400, 225) |
| KineticCurve.FirstPlacement | src/components/kinetic-curve.tsx:50-54 | placing the all-zero initial state for 800×450 gives the placed scene with zero velocities |
| KineticCurve.ResizeResetsPositionsKeepsVelocities | src/components/kinetic-curve.tsx:199-202 | a resize depends on the old scene only through the handles' velocities, and placing twice is placing once |
| KineticCurve.InitSymmetricIff | src/components/kinetic-curve.tsx:74-75 | placement makes the handles mirror images through the centre exactly when their carried-over velocities are opposite |
| KineticCurve.P2Target | src/components/kinetic-curve.tsx:160-170 | with a canvas, the second target plus the pointer is (width, height); without one, the target is the pointer |
| KineticCurve.UpdatePhysics | src/components/kinetic-curve.tsx:158-170 | the first handle steps toward the pointer and the second toward the mirrored target; anchors and pointer are unchanged |
| KineticCurve.UpdatePhysicsKeepsSymmetry | src/components/kinetic-curve.tsx:158-167 | handles that are mirror images through the canvas centre stay so after a frame |
| KineticCurve.UpdatePhysicsFixedIff | src/components/kinetic-curve.tsx:158-170 | a frame leaves the scene unchanged exactly when both handles rest on their targets |
| KineticCurve.Run | src/components/kinetic-curve.tsx:207-211 | any number of frames leaves the anchors and the pointer unchanged |
| KineticCurve.RunKeepsSymmetry | src/components/kinetic-curve.tsx:158-167 | mirror symmetry through the canvas centre holds after every number of frames |
| KineticCurve.UpdatePhysicsScalesEnergy | src/components/kinetic-curve.tsx:158-170 | one frame multiplies the energy of the two handles by 0.8 |
| KineticCurve.RunScalesEnergy | src/components/kinetic-curve.tsx:158-170 | n frames multiply the handles' energy by 0.8ⁿ |
| KineticCurve.RunApproachesTargets | src/components/kinetic-curve.tsx:158-170 | after n frames each handle's squared distance to its target is at most 1.25·0.8ⁿ times the starting energy |
| KineticCurve.PointerAtCentreFor200Frames | src/components/kinetic-curve.tsx:67-78 | at pixel ratio one (backing store 800×450), from the first 800×450 placement with the pointer left at the centre, after 200 or more frames both handles are within one unit of the centre |
| KineticCurve.PointerAtOriginOneFrame | src/components/kinetic-curve.tsx:141-158 | with the pointer moved to (0, 0), one frame moves the first handle from (240, 125) to (230.4, 120) with velocity (−9.6, −5) |
| KineticCurve.FrameAsWritten | src/components/kinetic-curve.tsx:160-167 | the frame as written: the second handle is aimed through half the backing-store size (CSS size × pixel ratio, truncated to whole pixels); it agrees with the corrected frame on the first handle, and everywhere when the ratio is one and the layout size is a whole number of pixels |
| KineticCurve.BackingSize | src/components/kinetic-curve.tsx:184-185 | the backing-store dimension is the whole number of device pixels at or just below CSS size × pixel ratio |
| KineticCurve.FractionalHeightMovesTarget | src/components/kinetic-curve.tsx:162 | at ratio one, a 936×526.5 layout is placed with the pointer at its centre (468, 263.25) but gets a 526-pixel-high backing store, so the second handle is sent to (468, 262.75) instead of the pointer |
| KineticCurve.HiDpiTargetOffCanvas | src/components/kinetic-curve.tsx:162 | at pixel ratio 2 on an 800×450 canvas, the pointer at the centre sends the second handle to (1200, 675) |
| KineticCurve.HiDpiFrameBreaksSymmetry | src/components/kinetic-curve.tsx:162 | at pixel ratio 2 the first frame as written breaks the mirror symmetry of the first placement |
| KineticCurve.Frame | src/components/kinetic-curve.tsx:160-167 | the corrected frame steps the first handle toward the pointer and keeps the handles mirror images through the centre of the laid-out canvas; with the pointer at that centre, the second handle also steps toward the pointer |
| KineticCurve.PlacedSceneStaysSymmetric | src/components/kinetic-curve.tsx:67-78 | a scene placed with opposite handle velocities stays mirror symmetric through the CSS centre for every number of corrected frames |

## Left out

- `draw` (lines 80-138) is left out. It is canvas drawing: clearing, strokes, dashes and arcs. Its sampling loops step a floating-point parameter by 0.01 and 0.2. Only the curve and tangent arithmetic it calls is modelled.
- The React lifecycle is left out: `useEffect`, `useRef`, `useCallback`, the event listeners, `requestAnimationFrame` and clean-up (lines 174-223). A sequence of frames is modelled by `KineticCurve.Run`, and a resize by calling `KineticCurve.Init` again.
- The pointer handler (lines 193-197) is left out. It only converts client coordinates to canvas coordinates. The pointer is a field of the scene that a caller may set.
- `setCanvasDimensions` (lines 181-188) is modelled only through its effect on the mirror centre; see the finding. Lines 184-185 truncate the backing-store size to whole device pixels (`KineticCurve.BackingSize`). The `ctx.scale(dpr, dpr)` call at line 186 affects drawing only and is not modelled.
- The pixel ratio is the value after the `|| 1` fallback of line 182: `KineticCurve.BackingSize` and `KineticCurve.FrameAsWritten` take it as a positive parameter, and the fallback itself is not modelled. Backing sizes of 2³¹ pixels or more are not modelled either: there the assigned value is reduced modulo 2³², and a result above 2³¹ − 1 falls back to the default size of 300 × 150.
- IEEE-754 doubles are modelled as exact reals, so rounding is left out.
- `Math.sqrt` is replaced by the caller-supplied length `len`.
- `src/app/page.tsx` only mounts the component and is not part of this model.
- A resize does not preserve the handles' positions: lines 74-75 reassign `pos` and keep `vel`. The model does the same; see `KineticCurve.ResizeResetsPositionsKeepsVelocities`.
- A handle's distance to its target does not strictly decrease after an initial transient, so this is not stated. The step has complex eigenvalues, so the distance can oscillate. What holds and is proved is the exact energy decay and the resulting geometric bound on the distance.

## Findings

| source | as written | input that shows it | evidently intended | confidence | as-written member | corrected member |
|---|---|---|---|---|---|---|
| src/components/kinetic-curve.tsx:162 | the mirror centre is half of `canvas.width`/`canvas.height`. Lines 184-185 set these to the laid-out size times `devicePixelRatio`, truncated to whole pixels, while the pointer (lines 195-196) and the placement (line 191) use laid-out CSS pixels | pixel ratio 2 and an 800×450 canvas, with the pointer at the centre (400, 225) as placed: the backing store is 1600×900, the second handle is sent to (1200, 675), off the canvas, and the handles stop being mirror images after one frame. At ratio one a 936×526.5 layout still moves the target by half a pixel | mirror the pointer through the centre of the laid-out canvas, (400, 225) here | medium — not executed | KineticCurve.FrameAsWritten, KineticCurve.HiDpiFrameBreaksSymmetry, KineticCurve.FractionalHeightMovesTarget | KineticCurve.Frame, KineticCurve.PlacedSceneStaysSymmetric |

=== FILE: geometry.dfy ===
/**
 Plane geometry of the kinetic curve: points in surface pixel space, linear
 interpolation, the cubic Bézier curve in Bernstein form, its derivative and
 the normalisation that turns the derivative into a unit tangent.

 Coordinates are exact reals: an idealisation of the JavaScript numbers the
 component computes with.
 */
module Geometry {

  /** A coordinate in surface pixel space. */
  datatype Point = Point(x: real, y: real)

  const Origin: Point := Point(0.0, 0.0)

  function Add(p: Point, q: Point): Point {
    Point(p.x + q.x, p.y + q.y)
  }

  function Sub(p: Point, q: Point): Point {
    Point(p.x - q.x, p.y - q.y)
  }

  function Scale(k: real, p: Point): Point {
    Point(k * p.x, k * p.y)
  }

  function Neg(p: Point): Point {
    Point(-p.x, -p.y)
  }

  /** Squared Euclidean length. */
  function Norm2(p: Point): real {
    p.x * p.x + p.y * p.y
  }

  // Facts of real arithmetic the proofs below rely on. They are stated over
  // plain reals so that the solver meets no datatype in them.

  lemma SquareNonneg(a: real)
    ensures a * a >= 0.0
  {}

  lemma SquarePos(a: real)
    requires a != 0.0
    ensures a * a > 0.0
  {}

  lemma SumSquaresNonneg(a: real, b: real)
    ensures a * a + b * b >= 0.0
  {
    SquareNonneg(a);
    SquareNonneg(b);
  }

  lemma SumSquaresPos(a: real, b: real)
    requires a != 0.0 || b != 0.0
    ensures a * a + b * b > 0.0
  {
    if a != 0.0 {
      SquarePos(a);
      SquareNonneg(b);
    } else {
      SquarePos(b);
      SquareNonneg(a);
    }
  }

  lemma MulDivCancel(a: real, l: real)
    requires l != 0.0
    ensures l * (a / l) == a
  {}

  lemma CancelSquare(a: real, len: real)
    requires len > 0.0 && a * (len * len) == len * len
    ensures a == 1.0
  {
    SquarePos(len);
  }

  /** Dividing both coordinates of (a, b) by a length of that vector yields
      a vector of squared length one. */
  lemma UnitAfterDivision(a: real, b: real, len: real)
    requires len > 0.0 && len * len == a * a + b * b
    ensures (a / len) * (a / len) + (b / len) * (b / len) == 1.0
  {
    var ra, rb := a / len, b / len;
    assert (ra * ra + rb * rb) * (len * len) == len * len by {
      MulDivCancel(a, len);
      MulDivCancel(b, len);
      calc {
        (ra * ra + rb * rb) * (len * len);
        (len * ra) * (len * ra) + (len * rb) * (len * rb);
        a * a + b * b;
        len * len;
      }
    }
    CancelSquare(ra * ra + rb * rb, len);
  }

  lemma Norm2Nonneg(p: Point)
    ensures Norm2(p) >= 0.0
  {
    SumSquaresNonneg(p.x, p.y);
  }

  /** Only the origin has squared length zero. */
  lemma Norm2ZeroIff(p: Point)
    ensures Norm2(p) == 0.0 <==> p == Origin
  {
    if p != Origin {
      var a, b := p.x, p.y;
      SumSquaresPos(a, b);
      calc {
        Norm2(p);
        a * a + b * b;
      > 0.0;
      }
    }
  }

  /** The reflection of p through the centre c, computed on each axis as
      c + (c - p). The centre is the midpoint of p and its image. */
  function Mirror(p: Point, c: Point): (r: Point)
    ensures Add(r, p) == Scale(2.0, c)
  {
    Point(c.x + (c.x - p.x), c.y + (c.y - p.y))
  }

  /** Reflecting twice through the same centre is the identity. */
  lemma MirrorInvolution(p: Point, c: Point)
    ensures Mirror(Mirror(p, c), c) == p
  {}

  /** The centre is the only point its reflection leaves in place. */
  lemma MirrorFixedIff(p: Point, c: Point)
    ensures Mirror(p, c) == p <==> p == c
  {}

  /** The component's interpolation helper: a + (b - a) * t. */
  function Lerp(a: real, b: real, t: real): (r: real)
    ensures t == 0.0 ==> r == a
    ensures t == 1.0 ==> r == b
    ensures a == b ==> r == a
  {
    a + (b - a) * t
  }

  /** Interpolating from a to b at t is interpolating from b to a at 1 - t. */
  lemma LerpReverse(a: real, b: real, t: real)
    ensures Lerp(a, b, 1.0 - t) == Lerp(b, a, t)
  {}

  /** Lerp applied to each axis. */
  function LerpPoint(p: Point, q: Point, t: real): Point {
    Point(Lerp(p.x, q.x, t), Lerp(p.y, q.y, t))
  }

  /** The Bernstein form of a cubic on one axis, with the same grouping of
      products as the component: (1-t)^3 a + 3(1-t)^2 t b + 3(1-t) t^2 c + t^3 d. */
  function Bernstein(t: real, a: real, b: real, c: real, d: real): real {
    var u := 1.0 - t;
    var tt := t * t;
    var uu := u * u;
    var uuu := uu * u;
    var ttt := tt * t;
    uuu * a + 3.0 * uu * t * b + 3.0 * u * tt * c + ttt * d
  }

  /** The point at parameter t on the cubic Bézier curve with control points
      p0..p3. The parameter is not clamped. */
  function BezierPoint(t: real, p0: Point, p1: Point, p2: Point, p3: Point): (r: Point)
    ensures t == 0.0 ==> r == p0
    ensures t == 1.0 ==> r == p3
  {
    Point(Bernstein(t, p0.x, p1.x, p2.x, p3.x), Bernstein(t, p0.y, p1.y, p2.y, p3.y))
  }

  /** The derivative of the Bernstein form on one axis:
      3(1-t)^2 (b-a) + 6(1-t)t (c-b) + 3t^2 (d-c). */
  function BernsteinDerivative(t: real, a: real, b: real, c: real, d: real): real {
    var u := 1.0 - t;
    var tt := t * t;
    var uu := u * u;
    3.0 * uu * (b - a) + 6.0 * u * t * (c - b) + 3.0 * tt * (d - c)
  }

  /** The raw (unnormalised) derivative of the curve at t. At the ends it is
      three times the first and the last leg of the control polygon. */
  function Derivative(t: real, p0: Point, p1: Point, p2: Point, p3: Point): (d: Point)
    ensures t == 0.0 ==> d == Scale(3.0, Sub(p1, p0))
    ensures t == 1.0 ==> d == Scale(3.0, Sub(p3, p2))
  {
    Point(BernsteinDerivative(t, p0.x, p1.x, p2.x, p3.x),
          BernsteinDerivative(t, p0.y, p1.y, p2.y, p3.y))
  }

  /** len is the Euclidean length of v: the non-negative number whose
      square is the squared length. It stands in for a square root. */
  predicate IsLength(v: Point, len: real) {
    len >= 0.0 && len * len == Norm2(v)
  }

  /** Division of a vector by len, or the zero vector when len is not
      positive. Given the true length of v, the result is the unit vector
      along v, or zero exactly when v is zero. */
  function Normalize(v: Point, len: real): (r: Point)
    ensures len <= 0.0 ==> r == Origin
    ensures IsLength(v, len) ==> (r == Origin <==> v == Origin)
    ensures IsLength(v, len) && v != Origin ==> len > 0.0 && Norm2(r) == 1.0 && Scale(len, r) == v
  {
    if len > 0.0 then
      var r := Point(v.x / len, v.y / len);
      assert IsLength(v, len) ==> Norm2(r) == 1.0 && Scale(len, r) == v by {
        if IsLength(v, len) {
          NormalizeUnit(v, len);
        }
      }
      r
    else
      assert IsLength(v, len) ==> v == Origin by {
        if IsLength(v, len) {
          Norm2ZeroIff(v);
        }
      }
      Origin
  }

  lemma NormalizeUnit(v: Point, len: real)
    requires len > 0.0 && len * len == Norm2(v)
    ensures Norm2(Point(v.x / len, v.y / len)) == 1.0
    ensures Scale(len, Point(v.x / len, v.y / len)) == v
  {
    var a, b := v.x, v.y;
    MulDivCancel(a, len);
    MulDivCancel(b, len);
    UnitAfterDivision(a, b, len);
    calc {
      Norm2(Point(a / len, b / len));
      (a / len) * (a / len) + (b / len) * (b / len);
      1.0;
    }
  }

  /** The unit tangent of the curve at t, or the zero vector where the
      derivative vanishes; len is the length the caller computed for the
      derivative. */
  function Tangent(t: real, p0: Point, p1: Point, p2: Point, p3: Point, len: real): (r: Point)
    ensures var d := Derivative(t, p0, p1, p2, p3);
      IsLength(d, len) ==> (r == Origin <==> d == Origin)
    ensures var d := Derivative(t, p0, p1, p2, p3);
      IsLength(d, len) && r != Origin ==> Norm2(r) == 1.0 && len > 0.0 && Scale(len, r) == d
  {
    Normalize(Derivative(t, p0, p1, p2, p3), len)
  }

  /** The de Casteljau construction: three rounds of interpolation along the
      control polygon. It is the reference definition the Bernstein form is
      checked against. */
  function DeCasteljau(t: real, p0: Point, p1: Point, p2: Point, p3: Point): Point {
    var q0 := LerpPoint(p0, p1, t);
    var q1 := LerpPoint(p1, p2, t);
    var q2 := LerpPoint(p2, p3, t);
    LerpPoint(LerpPoint(q0, q1, t), LerpPoint(q1, q2, t), t)
  }

  /** The last round of the de Casteljau construction interpolates between
      two points; three times their difference is the curve's derivative. */
  function DeCasteljauChord(t: real, p0: Point, p1: Point, p2: Point, p3: Point): Point {
    var q0 := LerpPoint(p0, p1, t);
    var q1 := LerpPoint(p1, p2, t);
    var q2 := LerpPoint(p2, p3, t);
    Sub(LerpPoint(q1, q2, t), LerpPoint(q0, q1, t))
  }

  lemma BernsteinIsDeCasteljau(t: real, a: real, b: real, c: real, d: real)
    ensures Bernstein(t, a, b, c, d)
         == Lerp(Lerp(Lerp(a, b, t), Lerp(b, c, t), t), Lerp(Lerp(b, c, t), Lerp(c, d, t), t), t)
  {
    var u := 1.0 - t;
    assert Lerp(a, b, t) == u * a + t * b;
    assert Lerp(b, c, t) == u * b + t * c;
    assert Lerp(c, d, t) == u * c + t * d;
    assert Lerp(Lerp(a, b, t), Lerp(b, c, t), t) == u * u * a + 2.0 * u * t * b + t * t * c;
    assert Lerp(Lerp(b, c, t), Lerp(c, d, t), t) == u * u * b + 2.0 * u * t * c + t * t * d;
  }

  /** The Bernstein form the component evaluates agrees with de Casteljau's
      construction at every parameter. */
  lemma BezierIsDeCasteljau(t: real, p0: Point, p1: Point, p2: Point, p3: Point)
    ensures BezierPoint(t, p0, p1, p2, p3) == DeCasteljau(t, p0, p1, p2, p3)
  {
    BernsteinIsDeCasteljau(t, p0.x, p1.x, p2.x, p3.x);
    BernsteinIsDeCasteljau(t, p0.y, p1.y, p2.y, p3.y);
  }

  lemma BernsteinDerivativeIsChord(t: real, a: real, b: real, c: real, d: real)
    ensures BernsteinDerivative(t, a, b, c, d)
         == 3.0 * (Lerp(Lerp(b, c, t), Lerp(c, d, t), t) - Lerp(Lerp(a, b, t), Lerp(b, c, t), t))
  {
    var u := 1.0 - t;
    assert Lerp(Lerp(a, b, t), Lerp(b, c, t), t) == u * u * a + 2.0 * u * t * b + t * t * c;
    assert Lerp(Lerp(b, c, t), Lerp(c, d, t), t) == u * u * b + 2.0 * u * t * c + t * t * d;
  }

  /** The derivative the component normalises is three times the chord of
      the last de Casteljau round, so the drawn tangent points along it. */
  lemma DerivativeIsDeCasteljauChord(t: real, p0: Point, p1: Point, p2: Point, p3: Point)
    ensures Derivative(t, p0, p1, p2, p3) == Scale(3.0, DeCasteljauChord(t, p0, p1, p2, p3))
  {
    BernsteinDerivativeIsChord(t, p0.x, p1.x, p2.x, p3.x);
    BernsteinDerivativeIsChord(t, p0.y, p1.y, p2.y, p3.y);
  }

  /** Half the second derivative of the Bernstein form on one axis. */
  function BernsteinHalfSecond(t: real, a: real, b: real, c: real, d: real): real {
    3.0 * ((1.0 - t) * (a - 2.0 * b + c) + t * (b - 2.0 * c + d))
  }

  /** A sixth of the (constant) third derivative of the Bernstein form. */
  function BernsteinSixthThird(a: real, b: real, c: real, d: real): real {
    d - 3.0 * c + 3.0 * b - a
  }

  /** Taylor's expansion of the cubic on one axis, exact because the cubic
      has degree three: BernsteinDerivative is its first derivative. */
  lemma BernsteinTaylor(t: real, h: real, a: real, b: real, c: real, d: real)
    ensures Bernstein(t + h, a, b, c, d)
         == Bernstein(t, a, b, c, d) + h * BernsteinDerivative(t, a, b, c, d)
            + h * h * BernsteinHalfSecond(t, a, b, c, d) + h * h * h * BernsteinSixthThird(a, b, c, d)
  {}

  /** What remains of a step of h along the curve after its linear part,
      divided by h^2: a polynomial in t and h, so bounded near h = 0. */
  function TaylorRemainder(t: real, h: real, p0: Point, p1: Point, p2: Point, p3: Point): Point {
    Point(BernsteinHalfSecond(t, p0.x, p1.x, p2.x, p3.x) + h * BernsteinSixthThird(p0.x, p1.x, p2.x, p3.x),
          BernsteinHalfSecond(t, p0.y, p1.y, p2.y, p3.y) + h * BernsteinSixthThird(p0.y, p1.y, p2.y, p3.y))
  }

  /** Moving the parameter by h moves the curve by h times Derivative plus
      h^2 times a bounded remainder, so Derivative is the curve's derivative
      and the tangent the component draws is the true direction of travel. */
  lemma DerivativeIsCurveDerivative(t: real, h: real, p0: Point, p1: Point, p2: Point, p3: Point)
    ensures Sub(BezierPoint(t + h, p0, p1, p2, p3), BezierPoint(t, p0, p1, p2, p3))
         == Add(Scale(h, Derivative(t, p0, p1, p2, p3)), Scale(h * h, TaylorRemainder(t, h, p0, p1, p2, p3)))
  {
    BernsteinTaylor(t, h, p0.x, p1.x, p2.x, p3.x);
    BernsteinTaylor(t, h, p0.y, p1.y, p2.y, p3.y);
  }

  /** The four Bernstein weights sum to one. */
  lemma BernsteinPartitionOfUnity(t: real, a: real)
    ensures Bernstein(t, a, a, a, a) == a
  {
    var u := 1.0 - t;
    calc {
      Bernstein(t, a, a, a, a);
      (u * u * u + 3.0 * u * u * t + 3.0 * u * t * t + t * t * t) * a;
      (u + t) * (u + t) * (u + t) * a;
    }
  }

  /** A curve whose four control points coincide is that single point at
      every parameter. */
  lemma DegenerateCurvePoint(t: real, p: Point)
    ensures BezierPoint(t, p, p, p, p) == p
  {
    BernsteinPartitionOfUnity(t, p.x);
    BernsteinPartitionOfUnity(t, p.y);
  }

  /** ... and has no direction: its derivative and its tangent are the zero
      vector. */
  lemma DegenerateCurveTangent(t: real, p: Point, len: real)
    ensures Derivative(t, p, p, p, p) == Origin
    ensures Tangent(t, p, p, p, p, len) == Origin
  {
    BernsteinDerivativeConstant(t, p.x);
    BernsteinDerivativeConstant(t, p.y);
    var d := Derivative(t, p, p, p, p);
    assert d == Origin;
    NormalizeOrigin(len);
  }

  /** The zero vector normalises to itself whatever length is supplied. */
  lemma NormalizeOrigin(len: real)
    ensures Normalize(Origin, len) == Origin
  {
    if len > 0.0 {
      assert 0.0 / len == 0.0;
    }
  }

  lemma BernsteinDerivativeConstant(t: real, a: real)
    ensures BernsteinDerivative(t, a, a, a, a) == 0.0
  {
    var u := 1.0 - t;
    calc {
      BernsteinDerivative(t, a, a, a, a);
      3.0 * (u * u) * 0.0 + 6.0 * u * t * 0.0 + 3.0 * (t * t) * 0.0;
      0.0;
    }
  }

  /** Traversing the control polygon backwards traverses the same curve
      backwards. */
  lemma BezierReverse(t: real, p0: Point, p1: Point, p2: Point, p3: Point)
    ensures BezierPoint(1.0 - t, p3, p2, p1, p0) == BezierPoint(t, p0, p1, p2, p3)
  {}

  /** ... and reverses its direction of travel. */
  lemma DerivativeReverse(t: real, p0: Point, p1: Point, p2: Point, p3: Point)
    ensures Derivative(1.0 - t, p3, p2, p1, p0) == Neg(Derivative(t, p0, p1, p2, p3))
  {}
}

=== FILE: kinetic_curve.dfy ===
/**
 The scene of the kinetic curve component: two fixed anchors, two dynamic
 handles, and the pointer position. It covers how the scene is placed from
 the surface size and re-placed on resize, and the per-frame physics update.
 That update pulls the first handle toward the pointer and the second toward
 the pointer reflected through the canvas centre.
 */
module KineticCurve {
  import opened Geometry
  import opened Physics

  /** The component's mutable state: anchors p0 and p3, dynamic handles p1
      and p2, and the last pointer position in surface coordinates. */
  datatype Scene = Scene(p0: Point, p1: DynamicPoint, p2: DynamicPoint, p3: Point, mouse: Point)

  /** What the canvas reference holds when a physics step runs: nothing, or
      a canvas whose width and height are read to find its centre. */
  datatype Surface = NoCanvas | Canvas(width: real, height: real)

  /** The state the component starts from before its first placement:
      every coordinate and velocity is zero. */
  const Unplaced: Scene :=
    Scene(Origin, DynamicPoint(Origin, Origin), DynamicPoint(Origin, Origin), Origin, Origin)

  /** The centre of a width-by-height area. */
  function Center(width: real, height: real): (c: Point)
    ensures Add(c, c) == Point(width, height)
  {
    Point(width / 2.0, height / 2.0)
  }

  /** Places the scene for a surface of the given size. The anchors are
      inset by a tenth of the width and centred vertically. The handles'
      positions are put a quarter and three quarters of the way between the
      anchors, 100 units above and below the middle. The pointer is put at
      the centre. Only the handles' positions are assigned; their velocities
      are carried over from s. */
  function Init(s: Scene, width: real, height: real): (r: Scene)
    ensures r.p1.vel == s.p1.vel && r.p2.vel == s.p2.vel
    ensures r.p0 == Point(width * 0.1, height / 2.0)
    ensures r.mouse == Center(width, height)
    ensures r.p0.y == r.mouse.y && r.p3.y == r.mouse.y
    ensures r.p3 == Mirror(r.p0, r.mouse)
    ensures r.p2.pos == Mirror(r.p1.pos, r.mouse)
    ensures r.p1.pos.x - r.p0.x == (r.p3.x - r.p0.x) / 4.0
    ensures r.p1.pos.y == r.mouse.y - 100.0
  {
    var padding := width * 0.1;
    var p0 := Point(padding, height / 2.0);
    var p3 := Point(width - padding, height / 2.0);
    var p1 := s.p1.(pos := Point(Lerp(p0.x, p3.x, 0.25), height / 2.0 - 100.0));
    var p2 := s.p2.(pos := Point(Lerp(p0.x, p3.x, 0.75), height / 2.0 + 100.0));
    Scene(p0, p1, p2, p3, Point(width / 2.0, height / 2.0))
  }

  /** An 800 by 450 surface puts the anchors at (80, 225) and (720, 225),
      the handles at (240, 125) and (560, 325), and the pointer at
      (400, 225). */
  lemma InitExample(s: Scene)
    ensures var r := Init(s, 800.0, 450.0);
      && r.p0 == Point(80.0, 225.0) && r.p3 == Point(720.0, 225.0)
      && r.p1.pos == Point(240.0, 125.0) && r.p2.pos == Point(560.0, 325.0)
      && r.mouse == Point(400.0, 225.0)
  {}

  /** The first placement on an 800 by 450 surface (see FirstPlacement). */
  const PlacedScene: Scene :=
    Scene(Point(80.0, 225.0), DynamicPoint(Point(240.0, 125.0), Origin),
          DynamicPoint(Point(560.0, 325.0), Origin), Point(720.0, 225.0), Point(400.0, 225.0))

  lemma FirstPlacement()
    ensures Init(Unplaced, 800.0, 450.0) == PlacedScene
  {}

  /** A resize re-runs the placement: what it produces depends on the
      previous scene only through the handles' velocities. Positions are
      reset and velocities carried over. Placing twice for the same size is
      the same as placing once. */
  lemma ResizeResetsPositionsKeepsVelocities(s: Scene, s': Scene, width: real, height: real)
    ensures s.p1.vel == s'.p1.vel && s.p2.vel == s'.p2.vel ==> Init(s, width, height) == Init(s', width, height)
    ensures Init(Init(s, width, height), width, height) == Init(s, width, height)
  {}

  /** The target of the second handle: the pointer reflected through the
      canvas centre when there is a canvas, the pointer itself when not. */
  function P2Target(mouse: Point, surface: Surface): (r: Point)
    ensures surface.NoCanvas? ==> r == mouse
    ensures surface.Canvas? ==> Add(r, mouse) == Point(surface.width, surface.height)
  {
    match surface
    case NoCanvas => mouse
    case Canvas(width, height) => Mirror(mouse, Center(width, height))
  }

  /** One frame of physics. The first handle steps toward the pointer and
      the second toward P2Target. The anchors and the pointer are not
      touched. */
  function UpdatePhysics(s: Scene, surface: Surface): (r: Scene)
    ensures r.p0 == s.p0 && r.p3 == s.p3 && r.mouse == s.mouse
    ensures r.p1 == UpdatePoint(s.p1, s.mouse)
    ensures r.p2 == UpdatePoint(s.p2, P2Target(s.mouse, surface))
  {
    var p1 := UpdatePoint(s.p1, s.mouse);
    var p2 := UpdatePoint(s.p2, P2Target(s.mouse, surface));
    s.(p1 := p1, p2 := p2)
  }

  /** The two handles are reflections of each other through c: positions
      mirrored, velocities opposite. */
  predicate Symmetric(s: Scene, c: Point) {
    s.p2 == MirrorDynamic(s.p1, c)
  }

  /** A frame with a canvas keeps the handles mirror images of each other
      through the canvas centre. */
  lemma UpdatePhysicsKeepsSymmetry(s: Scene, width: real, height: real)
    requires Symmetric(s, Center(width, height))
    ensures Symmetric(UpdatePhysics(s, Canvas(width, height)), Center(width, height))
  {
    var c := Center(width, height);
    UpdatePointCommutesWithMirror(s.p1, s.mouse, c);
  }

  /** A scene whose handles rest on their targets is left unchanged by a
      frame, and conversely. */
  lemma UpdatePhysicsFixedIff(s: Scene, surface: Surface)
    ensures UpdatePhysics(s, surface) == s <==>
              && s.p1 == DynamicPoint(s.mouse, Origin)
              && s.p2 == DynamicPoint(P2Target(s.mouse, surface), Origin)
  {
    UpdatePointFixedIff(s.p1, s.mouse);
    UpdatePointFixedIff(s.p2, P2Target(s.mouse, surface));
  }

  /** n consecutive frames with no pointer or resize event in between. */
  function Run(s: Scene, surface: Surface, n: nat): (r: Scene)
    ensures r.p0 == s.p0 && r.p3 == s.p3 && r.mouse == s.mouse
  {
    if n == 0 then s else UpdatePhysics(Run(s, surface, n - 1), surface)
  }

  /** Mirror symmetry of the handles through the canvas centre, once
      established, holds after every number of frames. */
  lemma {:induction false} RunKeepsSymmetry(s: Scene, width: real, height: real, n: nat)
    requires Symmetric(s, Center(width, height))
    ensures Symmetric(Run(s, Canvas(width, height), n), Center(width, height))
  {
    if n > 0 {
      RunKeepsSymmetry(s, width, height, n - 1);
      UpdatePhysicsKeepsSymmetry(Run(s, Canvas(width, height), n - 1), width, height);
    }
  }

  /** The total energy of the two handles with respect to their targets. */
  function SceneEnergy(s: Scene, surface: Surface): real {
    Energy(s.p1, s.mouse) + Energy(s.p2, P2Target(s.mouse, surface))
  }

  /** One frame scales the energy of the handles by Damping. */
  lemma UpdatePhysicsScalesEnergy(s: Scene, surface: Surface)
    ensures SceneEnergy(UpdatePhysics(s, surface), surface) == Damping * SceneEnergy(s, surface)
  {
    EnergyContracts(s.p1, s.mouse);
    EnergyContracts(s.p2, P2Target(s.mouse, surface));
  }

  lemma RunStepScalesEnergy(s: Scene, surface: Surface, n: nat)
    requires n > 0
    ensures SceneEnergy(Run(s, surface, n), surface) == Damping * SceneEnergy(Run(s, surface, n - 1), surface)
  {
    UpdatePhysicsScalesEnergy(Run(s, surface, n - 1), surface);
  }

  /** n frames scale the energy of the handles by Damping^n. */
  lemma {:induction false} RunScalesEnergy(s: Scene, surface: Surface, n: nat)
    ensures SceneEnergy(Run(s, surface, n), surface) == Decay(SceneEnergy(s, surface), n)
  {
    if n > 0 {
      RunStepScalesEnergy(s, surface, n);
      RunScalesEnergy(s, surface, n - 1);
    }
  }

  /** After n frames each handle is within a squared distance of
      1.25 * Damping^n * E of its target, where E is the energy at the
      start: the handles never diverge and approach their targets
      geometrically. */
  lemma RunApproachesTargets(s: Scene, surface: Surface, n: nat)
    ensures var r := Run(s, surface, n);
      && Norm2(Sub(r.p1.pos, s.mouse)) <= 1.25 * Decay(SceneEnergy(s, surface), n)
      && Norm2(Sub(r.p2.pos, P2Target(s.mouse, surface))) <= 1.25 * Decay(SceneEnergy(s, surface), n)
  {
    var r := Run(s, surface, n);
    RunScalesEnergy(s, surface, n);
    EnergyBoundsDistance(r.p1, s.mouse);
    EnergyBoundsDistance(r.p2, P2Target(s.mouse, surface));
  }

  /** Placing a scene makes its handles mirror images through the centre
      exactly when their carried-over velocities are opposite. */
  lemma InitSymmetricIff(s: Scene, width: real, height: real)
    ensures Symmetric(Init(s, width, height), Center(width, height)) <==> s.p2.vel == Neg(s.p1.vel)
  {
    var r := Init(s, width, height);
    if Symmetric(r, Center(width, height)) {
      assert r.p2.vel == Neg(r.p1.vel);
    }
  }

  /** The pointer left at the centre of an 800 by 450 surface for 200 frames
      or more at pixel ratio one (so the backing store is also 800 by 450),
      starting from the first placement: the anchors stay at (80, 225) and
      (720, 225), and both handles end within one unit of the centre, which
      is the target of each. */
  lemma PointerAtCentreFor200Frames(n: nat)
    requires n >= 200
    ensures var r := Run(Init(Unplaced, 800.0, 450.0), Canvas(800.0, 450.0), n);
      && r.p0 == Point(80.0, 225.0) && r.p3 == Point(720.0, 225.0)
      && Norm2(Sub(r.p1.pos, Point(400.0, 225.0))) < 1.0
      && Norm2(Sub(r.p2.pos, Point(400.0, 225.0))) < 1.0
  {
    var s := Init(Unplaced, 800.0, 450.0);
    var surface := Canvas(800.0, 450.0);
    FirstPlacement();
    assert P2Target(s.mouse, surface) == Point(400.0, 225.0);
    assert SceneEnergy(s, surface) == 71200.0;
    RunApproachesTargets(s, surface, n);
    DecayAntitone(71200.0, 200, n);
    DecayHalvesEveryFourSteps(71200.0, 50);
    HalveAntitone(71200.0, 17, 50);
    HalvedEnergyBelowOne();
  }

  lemma HalvedEnergyBelowOne()
    ensures 1.25 * Halve(71200.0, 17) < 1.0
  {
    assert Halve(71200.0, 4) == 4450.0;
    assert Halve(71200.0, 8) == 278.125;
    assert Halve(71200.0, 12) == 17.3828125;
    assert Halve(71200.0, 16) == 1.086425781250;
  }

  /** The pointer moved to (0, 0) on an 800 by 450 surface, one frame from
      the first placement: the first handle's new velocity is
      0.8 * (0.05 * ((0, 0) - (240, 125))) and its new position is its old
      one plus that velocity. */
  lemma PointerAtOriginOneFrame()
    ensures UpdatePhysics(Init(Unplaced, 800.0, 450.0).(mouse := Origin), Canvas(800.0, 450.0)).p1
         == DynamicPoint(Point(230.4, 120.0), Point(-9.6, -5.0))
  {
    FirstPlacement();
  }

  // The centre used to mirror the pointer. The component sizes the canvas's
  // backing store to the laid-out (CSS) size times the device pixel ratio,
  // truncated to whole pixels because the canvas dimensions are integers,
  // and then takes the centre from that backing store. The pointer, though,
  // is measured in CSS pixels.

  /** The backing-store size for a laid-out size and pixel ratio: the
      product truncated to a whole number of device pixels. dpr is the
      ratio the component uses, the display's device pixel ratio or 1 when
      that is not available, so it is always positive. */
  function BackingSize(cssSize: real, dpr: real): (r: real)
    requires cssSize >= 0.0 && dpr > 0.0
    ensures r.Floor as real == r
    ensures r <= cssSize * dpr < r + 1.0
  {
    (cssSize * dpr).Floor as real
  }

  /** The backing-store size is the whole number n whose unit interval
      holds the product. */
  lemma BackingSizeIs(cssSize: real, dpr: real, n: int)
    requires cssSize >= 0.0 && dpr > 0.0
    requires n as real <= cssSize * dpr < n as real + 1.0
    ensures BackingSize(cssSize, dpr) == n as real
  {
    FloorIs(cssSize * dpr, n);
  }

  lemma FloorIs(x: real, n: int)
    requires n as real <= x < n as real + 1.0
    ensures x.Floor == n
  {}

  /** One frame as the component computes it with the positive pixel ratio
      dpr (see BackingSize), for a canvas laid out at cssWidth by cssHeight: the mirror
      centre is half the truncated backing-store size. On a ratio-one display
      with a whole-pixel layout it is the corrected Frame. */
  function FrameAsWritten(s: Scene, cssWidth: real, cssHeight: real, dpr: real): (r: Scene)
    requires cssWidth >= 0.0 && cssHeight >= 0.0 && dpr > 0.0
    ensures (dpr == 1.0 && cssWidth.Floor as real == cssWidth && cssHeight.Floor as real == cssHeight) ==>
              r == Frame(s, cssWidth, cssHeight)
    ensures r.p1 == Frame(s, cssWidth, cssHeight).p1
    ensures r.p2 == UpdatePoint(s.p2, P2Target(s.mouse, Canvas(BackingSize(cssWidth, dpr), BackingSize(cssHeight, dpr))))
  {
    UpdatePhysics(s, Canvas(BackingSize(cssWidth, dpr), BackingSize(cssHeight, dpr)))
  }

  /** One frame with the mirror centre taken in the pointer's own (CSS)
      coordinates: the handles stay mirror images through the centre of the
      laid-out canvas. */
  function Frame(s: Scene, cssWidth: real, cssHeight: real): (r: Scene)
    ensures Symmetric(s, Center(cssWidth, cssHeight)) ==> Symmetric(r, Center(cssWidth, cssHeight))
    ensures r.p1 == UpdatePoint(s.p1, s.mouse)
    ensures s.mouse == Center(cssWidth, cssHeight) ==> r.p2 == UpdatePoint(s.p2, s.mouse)
  {
    var r := UpdatePhysics(s, Canvas(cssWidth, cssHeight));
    assert Symmetric(s, Center(cssWidth, cssHeight)) ==> Symmetric(r, Center(cssWidth, cssHeight)) by {
      if Symmetric(s, Center(cssWidth, cssHeight)) {
        UpdatePhysicsKeepsSymmetry(s, cssWidth, cssHeight);
      }
    }
    r
  }

  /** On a display with device pixel ratio 2 and an 800 by 450 canvas, the
      first placement puts the pointer at the centre (400, 225), yet the
      second handle is sent to (1200, 675), outside the canvas. */
  lemma HiDpiTargetOffCanvas()
    ensures PlacedScene.mouse == Center(800.0, 450.0)
    ensures P2Target(PlacedScene.mouse, Canvas(BackingSize(800.0, 2.0), BackingSize(450.0, 2.0))) == Point(1200.0, 675.0)
  {
    BackingSizeIs(800.0, 2.0, 1600);
    BackingSizeIs(450.0, 2.0, 900);
  }

  /** Even at ratio one, a layout height that is not a whole number of
      pixels moves the mirror centre: a 936 by 526.5 canvas (a 16:9 box)
      is placed with the pointer at its centre (468, 263.25) but gets a
      backing store 526 high, so the second handle is aimed at
      (468, 262.75) instead of at the pointer. */
  lemma FractionalHeightMovesTarget()
    ensures Init(Unplaced, 936.0, 526.5).mouse == Point(468.0, 263.25)
    ensures BackingSize(526.5, 1.0) == 526.0
    ensures P2Target(Point(468.0, 263.25), Canvas(BackingSize(936.0, 1.0), BackingSize(526.5, 1.0))) == Point(468.0, 262.75)
    ensures P2Target(Point(468.0, 263.25), Canvas(936.0, 526.5)) == Point(468.0, 263.25)
  {
    BackingSizeIs(936.0, 1.0, 936);
    BackingSizeIs(526.5, 1.0, 526);
  }

  /** ... and although the first placement has its handles mirror images
      through the centre, one frame as written breaks that symmetry. */
  lemma HiDpiFrameBreaksSymmetry()
    ensures Symmetric(PlacedScene, Center(800.0, 450.0))
    ensures !Symmetric(FrameAsWritten(PlacedScene, 800.0, 450.0, 2.0), Center(800.0, 450.0))
  {
    PlacedSceneSymmetric();
    HiDpiFirstHandle();
    HiDpiSecondHandle();
    StepsTowardOffTargetsAreNotSymmetric(FrameAsWritten(PlacedScene, 800.0, 450.0, 2.0));
  }

  lemma PlacedSceneSymmetric()
    ensures Symmetric(PlacedScene, Center(800.0, 450.0))
  {}

  /** A frame of the placed scene that steps the second handle toward
      (1200, 675) leaves velocities (6.4, 4) and (25.6, 14), which are not
      opposite. */
  lemma StepsTowardOffTargetsAreNotSymmetric(r: Scene)
    requires r.p1 == UpdatePoint(PlacedScene.p1, Point(400.0, 225.0))
    requires r.p2 == UpdatePoint(PlacedScene.p2, Point(1200.0, 675.0))
    ensures !Symmetric(r, Center(800.0, 450.0))
  {
    assert r.p1.vel == Point(6.4, 4.0);
    assert r.p2.vel == Point(25.6, 14.0);
  }

  lemma HiDpiFirstHandle()
    ensures FrameAsWritten(PlacedScene, 800.0, 450.0, 2.0).p1 == UpdatePoint(PlacedScene.p1, Point(400.0, 225.0))
  {}

  lemma HiDpiSecondHandle()
    ensures FrameAsWritten(PlacedScene, 800.0, 450.0, 2.0).p2 == UpdatePoint(PlacedScene.p2, Point(1200.0, 675.0))
  {
    HiDpiTargetOffCanvas();
  }

  /** With the corrected centre, a scene placed with opposite handle
      velocities (in particular the first placement) keeps its handles
      mirror images through the canvas centre for every number of frames. */
  lemma {:induction false} PlacedSceneStaysSymmetric(s: Scene, cssWidth: real, cssHeight: real, n: nat)
    requires s.p2.vel == Neg(s.p1.vel)
    ensures Symmetric(Run(Init(s, cssWidth, cssHeight), Canvas(cssWidth, cssHeight), n), Center(cssWidth, cssHeight))
  {
    InitSymmetricIff(s, cssWidth, cssHeight);
    RunKeepsSymmetry(Init(s, cssWidth, cssHeight), cssWidth, cssHeight, n);
  }
}

=== FILE: physics.dfy ===
/**
 The spring-damper step that drives the two dynamic control points of the
 kinetic curve toward their targets, the point reflection used to aim the
 second handle, and a quadratic energy that every step scales by exactly the
 damping factor.
 */
module Physics {
  import opened Geometry

  /** The component's spring constant and damping factor. */
  const SpringK: real := 0.05
  const Damping: real := 0.8

  /** A control point that moves: a position and the velocity the
      integrator carries from one frame to the next. */
  datatype DynamicPoint = DynamicPoint(pos: Point, vel: Point)

  /** One semi-implicit spring-damper step toward target: the spring force
      SpringK * (target - pos) is added to the velocity, the velocity is
      damped, and the position then moves by the NEW velocity. The two axes
      are updated in the same way and independently. */
  function UpdatePoint(point: DynamicPoint, target: Point): (r: DynamicPoint)
    ensures r.vel == Scale(Damping, Add(point.vel, Scale(SpringK, Sub(target, point.pos))))
    ensures r.pos == Add(point.pos, r.vel)
  {
    var dx := target.x - point.pos.x;
    var dy := target.y - point.pos.y;
    var accelX := dx * SpringK;
    var accelY := dy * SpringK;
    var vx := (point.vel.x + accelX) * Damping;
    var vy := (point.vel.y + accelY) * Damping;
    DynamicPoint(Point(point.pos.x + vx, point.pos.y + vy), Point(vx, vy))
  }

  /** A point is left where it is by a step exactly when it sits at rest on
      its target. */
  lemma UpdatePointFixedIff(point: DynamicPoint, target: Point)
    ensures UpdatePoint(point, target) == point <==> point.pos == target && point.vel == Origin
  {
    var r := UpdatePoint(point, target);
    if r == point {
      assert r.vel == Origin;
      assert point.vel == Origin;
      assert point.pos == target;
    }
  }

  /** The x-coordinates after a step depend only on the x-coordinates
      before it and of the target, and likewise for y. */
  lemma UpdatePointAxesIndependent(p: DynamicPoint, q: DynamicPoint, target: Point, target': Point)
    ensures p.pos.x == q.pos.x && p.vel.x == q.vel.x && target.x == target'.x ==>
              UpdatePoint(p, target).pos.x == UpdatePoint(q, target').pos.x
              && UpdatePoint(p, target).vel.x == UpdatePoint(q, target').vel.x
    ensures p.pos.y == q.pos.y && p.vel.y == q.vel.y && target.y == target'.y ==>
              UpdatePoint(p, target).pos.y == UpdatePoint(q, target').pos.y
              && UpdatePoint(p, target).vel.y == UpdatePoint(q, target').vel.y
  {}

  /** The reflection of a dynamic point through c: its position is
      reflected and its velocity reversed. */
  function MirrorDynamic(point: DynamicPoint, c: Point): (r: DynamicPoint)
    ensures Add(r.pos, point.pos) == Scale(2.0, c)
    ensures Add(r.vel, point.vel) == Origin
  {
    DynamicPoint(Mirror(point.pos, c), Neg(point.vel))
  }

  lemma MirrorDynamicInvolution(point: DynamicPoint, c: Point)
    ensures MirrorDynamic(MirrorDynamic(point, c), c) == point
  {
    MirrorInvolution(point.pos, c);
  }

  /** The step commutes with reflection through any centre: stepping the
      mirrored point toward the mirrored target gives the mirror of the
      stepped point. This holds because the step is affine. */
  lemma UpdatePointCommutesWithMirror(point: DynamicPoint, target: Point, c: Point)
    ensures UpdatePoint(MirrorDynamic(point, c), Mirror(target, c))
         == MirrorDynamic(UpdatePoint(point, target), c)
  {}

  /** The energy of one axis in displacement e = pos - target and velocity v.
      For SpringK = 0.05 and Damping = 0.8 it equals (e + 2v)^2 + 16v^2. */
  function AxisEnergy(e: real, v: real): real {
    e * e + 4.0 * e * v + 20.0 * v * v
  }

  /** The energy of a dynamic point with respect to its target. */
  function Energy(point: DynamicPoint, target: Point): real {
    AxisEnergy(point.pos.x - target.x, point.vel.x) + AxisEnergy(point.pos.y - target.y, point.vel.y)
  }

  /** One step on one axis, written with the step's own constants: the
      displacement e moves by the new velocity Damping * (v - SpringK * e).
      The energy form above is tied to these two values. */
  lemma AxisEnergyContracts(e: real, v: real)
    ensures AxisEnergy(e + Damping * (v - SpringK * e), Damping * (v - SpringK * e)) == Damping * AxisEnergy(e, v)
  {
    var v' := 0.8 * v - 0.04 * e;
    var e' := 0.96 * e + 0.8 * v;
    calc {
      AxisEnergy(e + Damping * (v - SpringK * e), Damping * (v - SpringK * e));
      AxisEnergy(e', v');
      e' * e' + 4.0 * e' * v' + 20.0 * v' * v';
      (0.9216 * (e * e) + 1.536 * (e * v) + 0.64 * (v * v))
        + 4.0 * (-0.0384 * (e * e) + 0.736 * (e * v) + 0.64 * (v * v))
        + 20.0 * (0.0016 * (e * e) - 0.064 * (e * v) + 0.64 * (v * v));
      0.8 * (e * e) + 3.2 * (e * v) + 16.0 * (v * v);
      Damping * AxisEnergy(e, v);
    }
  }

  /** Every step multiplies the energy by exactly the damping factor, so the
      step never diverges: the energy after n steps is Damping^n times the
      energy before them. */
  lemma EnergyContracts(point: DynamicPoint, target: Point)
    ensures Energy(UpdatePoint(point, target), target) == Damping * Energy(point, target)
  {
    var r := UpdatePoint(point, target);
    AxisEnergyContracts(point.pos.x - target.x, point.vel.x);
    AxisEnergyContracts(point.pos.y - target.y, point.vel.y);
    assert r.pos.x - target.x == (point.pos.x - target.x) + Damping * (point.vel.x - SpringK * (point.pos.x - target.x));
    assert r.vel.x == Damping * (point.vel.x - SpringK * (point.pos.x - target.x));
    assert r.pos.y - target.y == (point.pos.y - target.y) + Damping * (point.vel.y - SpringK * (point.pos.y - target.y));
    assert r.vel.y == Damping * (point.vel.y - SpringK * (point.pos.y - target.y));
  }

  lemma AxisEnergyBoundsDisplacement(e: real, v: real)
    ensures 0.8 * (e * e) <= AxisEnergy(e, v)
  {
    var w := e + 10.0 * v;
    SquareNonneg(w);
    calc {
      AxisEnergy(e, v);
      0.8 * (e * e) + 0.2 * (w * w);
    >= 0.8 * (e * e);
    }
  }

  /** The energy is an upper bound on the squared distance to the target:
      squared distance <= 1.25 * energy. */
  lemma EnergyBoundsDistance(point: DynamicPoint, target: Point)
    ensures 0.0 <= Norm2(Sub(point.pos, target)) <= 1.25 * Energy(point, target)
  {
    var ex, ey := point.pos.x - target.x, point.pos.y - target.y;
    AxisEnergyBoundsDisplacement(ex, point.vel.x);
    AxisEnergyBoundsDisplacement(ey, point.vel.y);
    Norm2Nonneg(Sub(point.pos, target));
    calc {
      Norm2(Sub(point.pos, target));
      ex * ex + ey * ey;
    <= 1.25 * Energy(point, target);
    }
  }

  /** The value e after n steps that each multiply it by Damping, that is
      Damping^n * e, computed one step at a time. */
  function Decay(e: real, n: nat): (r: real)
    ensures e >= 0.0 ==> 0.0 <= r <= e
    ensures e >= 0.0 && n > 0 ==> r <= Damping * e
  {
    if n == 0 then e else Damping * Decay(e, n - 1)
  }

  lemma {:induction false} DecayAntitone(e: real, j: nat, k: nat)
    requires e >= 0.0 && j <= k
    ensures Decay(e, k) <= Decay(e, j)
  {
    if j < k {
      DecayAntitone(e, j, k - 1);
      DecayNonneg(e, k - 1);
    }
  }

  lemma DecayNonneg(e: real, n: nat)
    requires e >= 0.0
    ensures Decay(e, n) >= 0.0
  {}

  /** e halved m times. */
  function Halve(e: real, m: nat): (r: real)
    ensures e >= 0.0 ==> 0.0 <= r <= e
  {
    if m == 0 then e else Halve(e, m - 1) / 2.0
  }

  lemma {:induction false} HalveAntitone(e: real, j: nat, k: nat)
    requires e >= 0.0 && j <= k
    ensures Halve(e, k) <= Halve(e, j)
  {
    if j < k {
      HalveAntitone(e, j, k - 1);
    }
  }

  lemma DecayFourSteps(e: real, n: nat)
    ensures Decay(e, n + 4) == 0.4096 * Decay(e, n)
  {
    assert Decay(e, n + 4) == Damping * Decay(e, n + 3);
    assert Decay(e, n + 3) == Damping * Decay(e, n + 2);
    assert Decay(e, n + 2) == Damping * Decay(e, n + 1);
  }

  /** Four steps at least halve a non-negative energy. */
  lemma {:induction false} DecayHalvesEveryFourSteps(e: real, m: nat)
    requires e >= 0.0
    ensures Decay(e, 4 * m) <= Halve(e, m)
  {
    if m > 0 {
      DecayHalvesEveryFourSteps(e, m - 1);
      DecayFourSteps(e, 4 * (m - 1));
      assert 4 * (m - 1) + 4 == 4 * m;
    }
  }
}
